=== FILE: README.md ===
# LLM gateway: admission and routing, modelled in Dafny

This project models the request-admission and routing core of a small Go
gateway that sits in front of three LLM providers (OpenAI, Anthropic,
DeepSeek). A caller presents a *virtual key* as `Authorization: Bearer <key>`.
The gateway maps that key to a provider and the provider's real API key,
forwards the request to the provider's fixed endpoint with the real
credentials, passes the upstream response back unchanged, and logs one
record per completed interaction. Beside the gateway sits a per-key hourly
quota tracker. In the code the gateway never consults it.

Files, one module each:

- `wrappers.dfy` (`Wrappers`): `Option` and `Result`.
- `strings.dfy` (`Strings`): `strings.TrimPrefix` and `strings.ToLower`.
- `http.dfy` (`Http`): the parts of `net/http` the gateway uses. This is a
  header map mutated in place (`Header` class with `Add`, `Set` and `Del`), the
  header-copy loop shared by both `ServeHTTP` variants (`CopyHeader`), a
  `ResponseWriter` class, and `http.Error`.
- `virtualkey.dfy` (`VirtualKey`): the `KeyConfig` record and the `Service`
  value with `ValidateRequest` and `GetKeyConfig`.
- `provider.dfy` (`Providers`): the closed `Provider` datatype
  `OpenAI | Anthropic | DeepSeek`. Each has an endpoint, a name and an
  auth-stamping step. The file also holds the `Registry` and `NewRegistry`.
- `usage.dfy` (`Usage`): the quota `Tracker` class. Its `usage` map is updated
  in place. Pure functions (`Observed`, `Refreshed`, `AfterCheck`,
  `AfterRecord`, `RecordAll`) specify its methods, and lemmas state the quota
  properties over those functions.
- `logging.dfy` (`Logging`): `LogEntry` and the logger collaborator, which
  appends records.
- `gateway.dfy` (`Gateway`): the package gateway. `Serve` is its decision
  chain as a value. `Gateway.ServeHTTP` is the imperative handler, proved to
  write exactly the response `Serve` decides and to log exactly the record
  `Serve` decides.
- `maingateway.dfy` (`MainGateway`): the self-contained gateway of `main.go`,
  which has inline checks and switches. The file ends with lemmas comparing
  it with the package gateway.

Modelling choices:

- Time is an integer parameter `now` in nanoseconds, in place of
  `time.Now()`. `HOUR` is `time.Hour`.
- The upstream call is a parameter `send: Outbound -> Upstream`. It is a total
  function from the exact outbound request to one of three outcomes: a
  transport failure, an unreadable body, or a complete response. Each
  `Outcome` therefore records the one response written, the request forwarded
  (if any) and the record logged (if any).
- Reading the inbound body is an `Option`: `None` means `io.ReadAll` failed.
- Header names are taken to be already in Go's canonical form.
  `Header.Set("x-api-key", …)` and `Header.Set("anthropic-version", …)` store
  their values under `X-Api-Key` and `Anthropic-Version`, as Go's
  canonicalisation does.
- Neither gateway consults the quota tracker. `internal/gateway/gateway.go`
  does not import `internal/usage`, and `main.go` never calls it, so no
  request is ever answered with 429. Both upstream clients are a bare
  `http.Client{}` (internal/gateway/gateway.go:109, main.go:223) with no
  `Timeout`. The tracker is therefore modelled on its own, neither `Serve`
  has a 429 branch, and no timeout exists to model.
- The tracker resets a window once at least an hour has elapsed: the tests
  at internal/usage/tracker.go:54 and :75 are `>=`. The model uses the same
  comparison.
- `main.go` declares its own `KeyConfig`, `Config` and `LogEntry` types. They
  have the same fields as the package types and are identified with them here.

## Model

| member | source | states |
|---|---|---|
| `Strings.TrimPrefix` | internal/virtualkey/virtualkey.go:27 | If `s` starts with the prefix, the prefix followed by the result is `s`; otherwise the result is `s` itself |
| `Strings.TrimPrefixUnchanged` | internal/virtualkey/virtualkey.go:27-30 | For a non-empty prefix, "TrimPrefix returned its input unchanged" holds exactly when the input does not start with the prefix. This is why the equality test detects a malformed header |
| `Strings.LowerChar` | internal/provider/provider.go:39 | The result is never an upper-case ASCII letter. An upper-case letter `A`-`Z` gains 32 (becomes its lower-case form); every other character is unchanged |
| `Strings.ToLower` | internal/provider/provider.go:39 | Keeps the length and lower-cases every character position by position |
| `Strings.ToLowerIdempotent` | internal/provider/provider.go:39 | Lower-casing twice equals lower-casing once |
| `Strings.ToLowerOfLower` | internal/provider/provider.go:29-33 | A string with no upper-case letters, such as each registry key, is its own lower-case form |
| `Http.HeaderGet` | internal/gateway/gateway.go:51 | `Header.Get` gives the first value under the name, or "" when the name is absent or has no values |
| `Http.CopiedEntries` | internal/gateway/gateway.go:96-103 | The copied map holds exactly the names not skipped that have at least one value, each with all its values in order |
| `Http.CopiedStep` | internal/gateway/gateway.go:97-103 | Visiting one more source name extends the copy by that name's entry, unless it is skipped or empty |
| `Http.Header.constructor` | internal/gateway/gateway.go:89 | A new request's header map is empty |
| `Http.Header.Add` | internal/gateway/gateway.go:100 | Appends the value after those already under the name and changes no other name |
| `Http.Header.Set` | internal/provider/openai.go:13 | Replaces all values under the name by the single value and changes no other name |
| `Http.Header.Del` | internal/gateway/gateway.go:46 | Removes the name and nothing else |
| `Http.AddAll` | internal/gateway/gateway.go:99-101 | Adding a name's values one by one to a header that lacks the name leaves it holding exactly those values in order, and an empty list adds nothing |
| `Http.CopyHeader` | internal/gateway/gateway.go:96-103 | The nested copy loop, which visits names in any order, leaves the empty target equal to the copy of every non-skipped, non-empty source entry |
| `Http.ErrorResponse` | internal/gateway/gateway.go:46 | The response `http.Error` produces carries the given status and a text body of the message followed by a newline |
| `Http.ResponseWriter.constructor` | internal/gateway/gateway.go:34 | A fresh writer has empty headers, no status and an empty body |
| `Http.ResponseWriter.WriteHeader` | internal/gateway/gateway.go:153 | The status can be written only once, and writing it leaves the body alone |
| `Http.ResponseWriter.Write` | internal/gateway/gateway.go:154 | After the status, appends the bytes to the body |
| `Http.Error` | internal/gateway/gateway.go:46 | On an unwritten writer, drops Content-Length, sets the plain-text Content-Type and `nosniff` headers, writes the status and writes the message with a newline |
| `VirtualKey.Service.ValidateRequest` | internal/virtualkey/virtualkey.go:21-38 | Rejects as missing exactly the empty header. Rejects as malformed exactly a non-empty header without the `Bearer ` prefix. Rejects as unknown exactly a prefixed header whose remainder is not configured. Otherwise succeeds with a configured key `k` such that `"Bearer " + k` is the header |
| `VirtualKey.Service.GetKeyConfig` | internal/virtualkey/virtualkey.go:41-44 | Reports existence exactly for configured keys and returns the configured entry, or the zero `KeyConfig` when the key is absent |
| `VirtualKey.ValidatedKeyIsConfigured` | internal/virtualkey/virtualkey.go:33-44 | Whenever validation succeeds, `GetKeyConfig` on the returned key reports `true` with the configured entry |
| `VirtualKey.StripsPrefixOnce` | internal/virtualkey/virtualkey.go:27 | The prefix is stripped exactly once: `"Bearer Bearer x"` yields the key `"Bearer x"` |
| `Providers.Provider.AuthHeaders` | internal/provider/provider.go:14-15 | Stamping adds exactly the provider's auth header names, leaves every other header unchanged, and gives each stamped header its single value: a bearer token for OpenAI/DeepSeek, or the key and version for Anthropic |
| `Providers.Provider.SetAuthHeaders` | internal/provider/provider.go:14-15 | Mutating the header map in place leaves it equal to `AuthHeaders` of its old contents |
| `Providers.OpenAIContract` | internal/provider/openai.go:8-18 | The endpoint is `https://api.openai.com/v1/chat/completions` and the name is `openai`. `Authorization` holds exactly `["Bearer " + key]`, other headers are unchanged, and stamping is idempotent |
| `Providers.AnthropicContract` | internal/provider/anthropic.go:8-19 | The endpoint is `https://api.anthropic.com/v1/messages` and the name is `anthropic`. `X-Api-Key` holds `[key]` and `Anthropic-Version` holds `["2023-06-01"]`. `Authorization` and all other headers are untouched, and stamping is idempotent |
| `Providers.DeepSeekContract` | internal/provider/deepseek.go:8-18 | The endpoint is `https://api.deepseek.com/v1/chat/completions` and the name is `deepseek`. `Authorization` holds exactly `["Bearer " + key]`, other headers are unchanged, and stamping is idempotent |
| `Providers.ProvidersDistinct` | internal/provider/provider.go:29-33 | The three names are pairwise distinct, and so are the three endpoints |
| `Providers.Registry.Get` | internal/provider/provider.go:38-44 | Succeeds exactly when the lower-cased name is in the table, returning that entry. Otherwise it fails with `unsupported provider: <name as given>` |
| `Providers.NewRegistry` | internal/provider/provider.go:27-35 | The table has exactly the keys `openai`, `anthropic` and `deepseek`, and every provider is stored under its own name |
| `Providers.GetSupported` | internal/provider/provider.go:29-43 | On the fixed registry, `Get` succeeds if and only if `ToLower(name)` is one of the three names. The returned provider's `GetName()` is `ToLower(name)` |
| `Providers.GetCaseInsensitive` | internal/provider/provider.go:39 | `Get(n)` and `Get(ToLower(n))` both succeed or both fail, and on success they return the same provider |
| `Providers.GetByName` | internal/provider/provider.go:29-33 | Each provider's own name resolves back to that provider |
| `Usage.Observed` | internal/usage/tracker.go:32-43 | The entry `getOrCreateUsage` yields is the stored one if present; otherwise it is count 0 with a window starting at `now` |
| `Usage.Refreshed` | internal/usage/tracker.go:54-57 | After the reset step the window is never expired at `now`. A window at least an hour old becomes count 0 starting at `now`; a younger one is left untouched |
| `Usage.AfterCheck` | internal/usage/tracker.go:47-58 | `CheckQuota` adds its key if new and changes no other key's entry |
| `Usage.AfterRecord` | internal/usage/tracker.go:68-81 | `RecordRequest` adds its key if new and changes no other key's entry |
| `Usage.CheckNeverIncrements` | internal/usage/tracker.go:47-65 | After a check the key's count is between 0 and its count before, so a check never counts a request, and non-negative counts stay non-negative |
| `Usage.RecordAddsOne` | internal/usage/tracker.go:68-81 | After a record the count is exactly one more than the post-reset count, in the same window |
| `Usage.CheckIsInvisible` | internal/usage/tracker.go:47-81 | For every limit: checking twice equals checking once, and checking then recording equals recording |
| `Usage.WindowReset` | internal/usage/tracker.go:54-57 | Once the window is at least an hour old, the next check admits for any positive limit. The entry becomes `(0, now)`, and the following record makes it `(1, now)` |
| `Usage.RecordAllWithinWindow` | internal/usage/tracker.go:68-81 | Records at instants within an hour of the window's start never reset it. The count grows by exactly one per record, and other keys are untouched |
| `Usage.QuotaExhausted` | internal/usage/tracker.go:60-62 | For a key that is new or whose window starts at `w` with count `c`, after `k` records inside the hour from `w`, a check in that hour with any limit fails if and only if `c + k` reaches the limit, and it leaves the count at `c + k` |
| `Usage.Tracker.constructor` | internal/usage/tracker.go:23-28 | A new tracker has an empty usage map and stores the given limit |
| `Usage.Tracker.GetOrCreateUsage` | internal/usage/tracker.go:32-43 | Returns an existing entry unchanged, or inserts and returns `(0, now)` for an unseen key. No other entry changes |
| `Usage.Tracker.CheckQuota` | internal/usage/tracker.go:47-65 | Leaves the map as `AfterCheck` and fails exactly when the post-reset count reaches the limit, with an error carrying the limit. Counts stay non-negative |
| `Usage.Tracker.RecordRequest` | internal/usage/tracker.go:68-81 | Leaves the map as `AfterRecord`, one more request in the current window. Counts stay non-negative |
| `Usage.Tracker.GetStats` | internal/usage/tracker.go:84-94 | Changes nothing. It reports the stored count and window start without resetting, or `(0, limit, zero time)` for an unknown key |
| `Logging.Logger.constructor` | internal/logger/logger.go:36-51 | A new logger has recorded nothing |
| `Logging.Logger.LogInteraction` | internal/logger/logger.go:53-71 | Appends exactly one record |
| `Gateway.OutboundHeader` | internal/gateway/gateway.go:96-106 | Outbound headers hold every inbound header except `Authorization`, with all values in order. The provider's auth headers override same-named entries, so an Anthropic request carries no `Authorization` at all |
| `Gateway.Serve` | internal/gateway/gateway.go:34-160 | A request is forwarded exactly when its route, method, key, body and provider all pass. A record is logged exactly when the forwarded request got a complete upstream response |
| `Gateway.RouteChecks` | internal/gateway/gateway.go:38-48 | A wrong path gives the 404 response whatever the method. The right path with a non-POST method gives 405 |
| `Gateway.AuthFailureIs401` | internal/gateway/gateway.go:50-56 | A validation failure gives 401 with the validation message, and nothing is forwarded or logged |
| `Gateway.KeyConfigBranchUnreachable` | internal/gateway/gateway.go:58-64 | A 401 written by the gateway itself (nothing forwarded) always comes from a routed request whose validation failed, and its body is that failure's message. So the `GetKeyConfig`-missing branch never runs |
| `Gateway.BodyReadFailureIs400` | internal/gateway/gateway.go:66-72 | An authenticated request whose body cannot be read gets 400 "Failed to read request body", and nothing is forwarded or logged |
| `Gateway.UnsupportedProviderIs500` | internal/gateway/gateway.go:78-84 | A key whose provider the registry rejects gives 500 whose body is the registry's error (`unsupported provider: <name>`), with no forwarding and no log |
| `Gateway.ForwardedRequest` | internal/gateway/gateway.go:88-106 | A forwarded request is a POST to the provider's endpoint, with the buffered body byte for byte and the outbound headers |
| `Gateway.UpstreamFailureIs502` | internal/gateway/gateway.go:108-124 | A send failure gives 502 "Failed to forward request", and a failure to read the upstream body gives 502 "Failed to read response body". Neither is logged |
| `Gateway.SuccessPassesThrough` | internal/gateway/gateway.go:75-154 | The caller gets the upstream status, the identical body and every upstream header with its values. The log names the validated key, the provider's lower-case name, POST and the upstream status. The record keeps the request body with the request's `Content-Encoding` and the upstream body with the upstream `Content-Encoding` (gateway.go:75, 127, 140-141) |
| `Gateway.Gateway.constructor` | internal/gateway/gateway.go:24-31 | Stores the key service, the registry and the logger |
| `Gateway.Gateway.ServeHTTP` | internal/gateway/gateway.go:34-160 | Writes exactly one response, the one `Serve` decides, and appends exactly the log record `Serve` decides |
| `MainGateway.TargetURL` | main.go:177-190 | The inline switch yields a URL exactly for the three lower-cased supported names |
| `MainGateway.InlineAuthHeaders` | main.go:211-220 | An unknown provider name leaves the headers as they are. Headers other than the three auth names are never touched |
| `MainGateway.SetAPIKey` | main.go:211-220 | Mutating the header map in place leaves it equal to `InlineAuthHeaders` of its old contents |
| `MainGateway.Serve` | main.go:121-281 | A record is logged exactly when the forwarded request got a complete response, and requests go only to the three provider URLs. A logged record names the configured key stripped of `Bearer `, its provider exactly as configured without lower-casing, the method and the upstream status, and keeps the request and upstream bodies with no encoding (main.go:171-175, 241-245, 251-259) |
| `MainGateway.InlineRejections` | main.go:125-190 | Each rejection of `main.go` with its own text: 404 "404 page not found", 405 "Method not allowed", 401 "Missing Authorization header", 401 "Invalid Authorization header format. Expected 'Bearer <virtual-key>'", 401 "Invalid virtual key", 400 "Failed to read request body", and 500 "Unsupported provider" for an unknown provider. Each is conditioned on the checks before it, and none forwards or logs |
| `MainGateway.TargetURLAgrees` | main.go:29-32 | The inline URL switch accepts exactly the names the registry accepts and gives the same endpoints |
| `MainGateway.InlineAuthAgrees` | main.go:211-220 | For every supported name, the inline auth switch stamps exactly what the resolved provider's `SetAuthHeaders` stamps |
| `MainGateway.InlineValidationAgrees` | main.go:137-159 | The inline missing, malformed and unknown checks accept exactly the headers `ValidateRequest` accepts, and yield the same key |
| `MainGateway.VariantsAgree` | main.go:121-281 | Both gateways give every request the same status and forward the same request. Once a request is forwarded, their responses are identical. Their log records differ only in two ways: `main.go` logs the provider name as configured (the configuration entry's own `provider`, whose lower-case form is the package's name), and it does not decompress bodies for the log |
| `MainGateway.Gateway.constructor` | main.go:93-98 | Stores the configuration and the log sink |
| `MainGateway.Gateway.ServeHTTP` | main.go:121-281 | Writes exactly one response, the one `MainGateway.Serve` decides, and appends exactly the log record it decides |

## Left out

- Network and body I/O (`client.Do`, `io.ReadAll`, `ResponseWriter.Write` errors, `ListenAndServe`) appear only as their outcomes. These are the `Upstream` parameter and the optional request body. A failed write to the client is ignored by the code and not modelled.
- The `http.NewRequest` failure branches (internal/gateway/gateway.go:89-94, main.go:195-200) are not modelled. The method there is always POST and the URL a fixed valid constant, so construction does not fail.
- Timestamps and durations (`time.Now`, `time.Since`, `DurationMs`, `Timestamp`) are absent from `LogEntry`. The tracker takes `now` as a parameter, and each tracker operation reads the clock once where the code may read it twice.
- Concurrency is not modelled: the tracker's `sync.RWMutex` is gone, and each tracker method is one atomic step.
- The logger's JSON marshalling, console and file output, and `ParseJSONBody`'s gzip and JSON decoding are not modelled. A record keeps the raw bytes and the Content-Encoding that `ParseJSONBody` would parse (which falls back to `{"raw": body}`). `main.go`'s inline `json.Unmarshal` appears as the same with no encoding.
- `log.Printf` diagnostics are not modelled.
- Configuration and start-up are outside the model: `config.Load`, `LoadConfig`, `InitLogging`, `main` and environment variables. Only the `KeyConfig` record and the key map are modelled.
- The live smoke test `examples/test_router.py` is not part of this model.
- `Strings.ToLower` maps only ASCII letters, where Go's `strings.ToLower` is full Unicode. So the model's `Registry.Get` is weaker on non-ASCII names. Go maps U+212A KELVIN SIGN to `k` and U+0130 (capital I with dot above) to `i`, so `Get("deepsee\u212A")` and `Get("OPENA\u0130")` succeed in Go. The model rejects both, and the gateway then answers 500.
- Go's canonicalisation of header names is not modelled; names are assumed canonical.
- What the HTTP server adds after the handler returns is not modelled: `Date`, a computed `Content-Length`, a sniffed `Content-Type`. Neither is the panic of `WriteHeader` on a status outside 100-999. Upstream statuses are passed through as they are.
- The tracker's map holds `VirtualKeyUsage` values rather than pointers. The pointers never leave the tracker, so no aliasing is lost.
- `Usage.Tracker.RecordRequest`: the count is an unbounded integer, so Go's 64-bit `int` overflow after 2^63 requests is not modelled.
- The `Text`/`Bytes` tag on `Response.body` is a model artifact. On the wire both are the same bytes, so an upstream response can be byte-identical to an `http.Error` response yet compare unequal as a `Response`. No contract distinguishes the gateway's own errors by this tag; they are told apart by `Outcome.forwarded`. `Http.Error` also sets the body directly instead of going through `ResponseWriter.Write`.

=== FILE: gateway.dfy ===
/** The package gateway's request pipeline: route check, virtual-key
    validation, body buffering, provider resolution, outbound request
    construction, forwarding, logging and response pass-through, each
    failure ending the request with one error response. The upstream call is
    the parameter `send`, a function from the exact outbound request to its
    outcome. The quota tracker is not consulted: this package does not use it. */
module Gateway {
  import opened Wrappers
  import opened Http
  import opened VirtualKey
  import opened Providers
  import opened Logging

  const CHAT_COMPLETIONS_PATH := "/chat/completions"
  const METHOD_POST := "POST"
  const CONTENT_ENCODING := "Content-Encoding"

  const STATUS_BAD_REQUEST := 400
  const STATUS_UNAUTHORIZED := 401
  const STATUS_METHOD_NOT_ALLOWED := 405
  const STATUS_INTERNAL_SERVER_ERROR := 500
  const STATUS_BAD_GATEWAY := 502

  /** An inbound request; `body` is `None` when reading it fails. */
  datatype Request = Request(httpMethod: string, path: string, header: HeaderMap, body: Option<seq<byte>>)

  /** The request sent to the provider. */
  datatype Outbound = Outbound(httpMethod: string, url: string, header: HeaderMap, body: seq<byte>)

  /** What sending the outbound request yields: a transport failure, a
      response whose body could not be read, or a complete response. */
  datatype Upstream =
    | SendFailed
    | BodyReadFailed
    | Completed(status: int, header: HeaderMap, body: seq<byte>)

  /** One request's effect: the single response written to the caller, the
      request forwarded upstream (if any), and the record logged (if any). */
  datatype Outcome = Outcome(response: Response, forwarded: Option<Outbound>, logged: Option<LogEntry>)

  function Rejected(response: Response): Outcome
  {
    Outcome(response, None, None)
  }

  /** The log records an outcome appends, oldest first. */
  function LogRecords(o: Outcome): seq<LogEntry>
  {
    if o.logged.Some? then [o.logged.value] else []
  }

  /** The outbound headers: every inbound header but `Authorization`, then the
      provider's authentication headers on top. */
  function OutboundHeader(inbound: HeaderMap, prov: Provider, apiKey: string): (h: HeaderMap)
    ensures forall n :: n !in prov.AuthNames() ==>
      (n in h <==> n in inbound && n != AUTHORIZATION && inbound[n] != [])
    ensures forall n :: n !in prov.AuthNames() && n in h ==> h[n] == inbound[n]
    ensures prov == Anthropic ==> AUTHORIZATION !in h
    ensures prov != Anthropic ==> AUTHORIZATION in h && h[AUTHORIZATION] == ["Bearer " + apiKey]
    ensures prov == Anthropic ==>
      && X_API_KEY in h && h[X_API_KEY] == [apiKey]
      && ANTHROPIC_VERSION in h && h[ANTHROPIC_VERSION] == [ANTHROPIC_API_VERSION]
  {
    prov.AuthHeaders(Copied(inbound, inbound.Keys, {AUTHORIZATION}), apiKey)
  }

  /** The whole decision chain of `ServeHTTP`, as a value. */
  function Serve(svc: Service, registry: Registry, r: Request, send: Outbound -> Upstream): (o: Outcome)
    ensures o.forwarded.Some? <==>
      && r.path == CHAT_COMPLETIONS_PATH && r.httpMethod == METHOD_POST
      && svc.ValidateRequest(HeaderGet(r.header, AUTHORIZATION)).Success?
      && r.body.Some?
      && registry.Get(svc.virtualKeys[svc.ValidateRequest(HeaderGet(r.header, AUTHORIZATION)).value].provider).Success?
    ensures o.logged.Some? <==> o.forwarded.Some? && send(o.forwarded.value).Completed?
  {
    if r.path != CHAT_COMPLETIONS_PATH then Rejected(NOT_FOUND)
    else if r.httpMethod != METHOD_POST then Rejected(ErrorResponse(STATUS_METHOD_NOT_ALLOWED, "Method not allowed"))
    else match svc.ValidateRequest(HeaderGet(r.header, AUTHORIZATION))
      case Failure(err) => Rejected(ErrorResponse(STATUS_UNAUTHORIZED, err.Message()))
      case Success(virtualKey) =>
        var (keyConfig, configured) := svc.GetKeyConfig(virtualKey);
        if !configured then Rejected(ErrorResponse(STATUS_UNAUTHORIZED, "Invalid virtual key"))
        else if r.body.None? then Rejected(ErrorResponse(STATUS_BAD_REQUEST, "Failed to read request body"))
        else match registry.Get(keyConfig.provider)
          case Failure(msg) => Rejected(ErrorResponse(STATUS_INTERNAL_SERVER_ERROR, msg))
          case Success(prov) =>
            var out := Outbound(r.httpMethod, prov.GetEndpoint(), OutboundHeader(r.header, prov, keyConfig.apiKey), r.body.value);
            match send(out)
            case SendFailed =>
              Outcome(ErrorResponse(STATUS_BAD_GATEWAY, "Failed to forward request"), Some(out), None)
            case BodyReadFailed =>
              Outcome(ErrorResponse(STATUS_BAD_GATEWAY, "Failed to read response body"), Some(out), None)
            case Completed(status, header, body) =>
              var entry := LogEntry(virtualKey, prov.GetName(), r.httpMethod, status,
                                    LoggedBody(r.body.value, HeaderGet(r.header, CONTENT_ENCODING)),
                                    LoggedBody(body, HeaderGet(header, CONTENT_ENCODING)));
              Outcome(Response(status, Copied(header, header.Keys, {}), Bytes(body)), Some(out), Some(entry))
  }

  /** The path is checked first, whatever the method; then the method. */
  lemma RouteChecks(svc: Service, registry: Registry, r: Request, send: Outbound -> Upstream)
    ensures r.path != CHAT_COMPLETIONS_PATH ==>
      Serve(svc, registry, r, send) == Rejected(ErrorResponse(404, "404 page not found"))
    ensures r.path == CHAT_COMPLETIONS_PATH && r.httpMethod != METHOD_POST ==>
      Serve(svc, registry, r, send) == Rejected(ErrorResponse(405, "Method not allowed"))
  {
  }

  /** A routed request whose header fails validation gets 401 with the
      validation message, and nothing after authentication happens. */
  lemma AuthFailureIs401(svc: Service, registry: Registry, r: Request, send: Outbound -> Upstream)
    requires r.path == CHAT_COMPLETIONS_PATH && r.httpMethod == METHOD_POST
    requires svc.ValidateRequest(HeaderGet(r.header, AUTHORIZATION)).Failure?
    ensures Serve(svc, registry, r, send) ==
      Rejected(ErrorResponse(401, svc.ValidateRequest(HeaderGet(r.header, AUTHORIZATION)).error.Message()))
  {
  }

  /** A 401 the gateway writes itself (nothing was forwarded) always comes
      from a failed validation of a routed request and carries that
      failure's message: the `GetKeyConfig`-missing branch, with its
      capitalised "Invalid virtual key", never runs. */
  lemma KeyConfigBranchUnreachable(svc: Service, registry: Registry, r: Request, send: Outbound -> Upstream)
    ensures var o := Serve(svc, registry, r, send);
      var v := svc.ValidateRequest(HeaderGet(r.header, AUTHORIZATION));
      o.response.status == 401 && o.forwarded.None? ==>
        && r.path == CHAT_COMPLETIONS_PATH && r.httpMethod == METHOD_POST
        && v.Failure?
        && o.response == ErrorResponse(401, v.error.Message())
  {
    var auth := HeaderGet(r.header, AUTHORIZATION);
    if r.path == CHAT_COMPLETIONS_PATH && r.httpMethod == METHOD_POST {
      var v := svc.ValidateRequest(auth);
      if v.Success? {
        ValidatedKeyIsConfigured(svc, auth);
      }
    }
  }

  /** An authenticated request whose body cannot be read gets 400 and is not
      forwarded. */
  lemma BodyReadFailureIs400(svc: Service, registry: Registry, r: Request, send: Outbound -> Upstream)
    requires r.path == CHAT_COMPLETIONS_PATH && r.httpMethod == METHOD_POST
    requires svc.ValidateRequest(HeaderGet(r.header, AUTHORIZATION)).Success?
    requires r.body.None?
    ensures Serve(svc, registry, r, send) == Rejected(ErrorResponse(400, "Failed to read request body"))
  {
    ValidatedKeyIsConfigured(svc, HeaderGet(r.header, AUTHORIZATION));
  }

  /** An authenticated request whose key names a provider the registry does
      not know gets 500 with the registry's error, and is not forwarded. */
  lemma UnsupportedProviderIs500(svc: Service, registry: Registry, r: Request, send: Outbound -> Upstream)
    requires r.path == CHAT_COMPLETIONS_PATH && r.httpMethod == METHOD_POST && r.body.Some?
    requires svc.ValidateRequest(HeaderGet(r.header, AUTHORIZATION)).Success?
    requires registry.Get(svc.virtualKeys[svc.ValidateRequest(HeaderGet(r.header, AUTHORIZATION)).value].provider).Failure?
    ensures Serve(svc, registry, r, send) ==
      Rejected(ErrorResponse(500, registry.Get(svc.virtualKeys[svc.ValidateRequest(HeaderGet(r.header, AUTHORIZATION)).value].provider).error))
  {
    ValidatedKeyIsConfigured(svc, HeaderGet(r.header, AUTHORIZATION));
  }

  /** A forwarded request is a POST to the provider's endpoint carrying the
      buffered body byte for byte and the outbound headers. */
  lemma ForwardedRequest(svc: Service, registry: Registry, r: Request, send: Outbound -> Upstream)
    requires Serve(svc, registry, r, send).forwarded.Some?
    ensures
      var out := Serve(svc, registry, r, send).forwarded.value;
      var keyConfig := svc.virtualKeys[svc.ValidateRequest(HeaderGet(r.header, AUTHORIZATION)).value];
      var prov := registry.Get(keyConfig.provider).value;
      && out.httpMethod == METHOD_POST
      && out.url == prov.GetEndpoint()
      && out.body == r.body.value
      && out.header == OutboundHeader(r.header, prov, keyConfig.apiKey)
  {
  }

  /** A failed send gives 502 "Failed to forward request", a failed read of
      the upstream body 502 "Failed to read response body"; neither is logged. */
  lemma UpstreamFailureIs502(svc: Service, registry: Registry, r: Request, send: Outbound -> Upstream)
    requires Serve(svc, registry, r, send).forwarded.Some?
    requires !send(Serve(svc, registry, r, send).forwarded.value).Completed?
    ensures send(Serve(svc, registry, r, send).forwarded.value).SendFailed? ==>
      Serve(svc, registry, r, send).response == ErrorResponse(502, "Failed to forward request")
    ensures send(Serve(svc, registry, r, send).forwarded.value).BodyReadFailed? ==>
      Serve(svc, registry, r, send).response == ErrorResponse(502, "Failed to read response body")
    ensures Serve(svc, registry, r, send).logged.None?
  {
  }

  /** A complete upstream response reaches the caller unchanged: its status,
      its byte-identical body, and every header with all its values; the log
      record names the validated key, the provider's lower-case name, the
      method and the upstream status, and keeps the request body and the
      upstream body, each with its own `Content-Encoding` for decoding. */
  lemma SuccessPassesThrough(svc: Service, registry: Registry, r: Request, send: Outbound -> Upstream)
    requires Serve(svc, registry, r, send).forwarded.Some?
    requires send(Serve(svc, registry, r, send).forwarded.value).Completed?
    ensures
      var o := Serve(svc, registry, r, send);
      var up := send(o.forwarded.value);
      var virtualKey := svc.ValidateRequest(HeaderGet(r.header, AUTHORIZATION)).value;
      var prov := registry.Get(svc.virtualKeys[virtualKey].provider).value;
      && o.response.status == up.status
      && o.response.body == Bytes(up.body)
      && (forall n :: n in up.header && up.header[n] != [] ==> n in o.response.header && o.response.header[n] == up.header[n])
      && (forall n :: n in o.response.header ==> n in up.header)
      && o.logged.value.virtualKey == virtualKey
      && o.logged.value.provider == prov.GetName()
      && o.logged.value.httpMethod == METHOD_POST
      && o.logged.value.status == up.status
      && o.logged.value.request == LoggedBody(r.body.value, HeaderGet(r.header, CONTENT_ENCODING))
      && o.logged.value.response == LoggedBody(up.body, HeaderGet(up.header, CONTENT_ENCODING))
  {
  }

  /** `Gateway`: the virtual-key service, the provider registry and the
      logger, fixed at construction. */
  class Gateway {
    const vkService: Service
    const providerRegistry: Registry
    const logger: Logger

    constructor (vkService: Service, providerRegistry: Registry, log: Logger)
      ensures this.vkService == vkService && this.providerRegistry == providerRegistry && logger == log
    {
      this.vkService := vkService;
      this.providerRegistry := providerRegistry;
      logger := log;
    }

    /** `ServeHTTP`: writes exactly one response, the one `Serve` decides, and
        logs exactly the record `Serve` decides. */
    method ServeHTTP(w: ResponseWriter, r: Request, send: Outbound -> Upstream)
      requires w.status.None? && w.header.entries == map[] && w.body == Bytes([])
      modifies w, w.header, logger
      ensures w.status.Some?
      ensures w.Sent() == Serve(vkService, providerRegistry, r, send).response
      ensures logger.entries == old(logger.entries) + LogRecords(Serve(vkService, providerRegistry, r, send))
    {
      if r.path != CHAT_COMPLETIONS_PATH {
        Error(w, "404 page not found", 404);
        return;
      }
      if r.httpMethod != METHOD_POST {
        Error(w, "Method not allowed", STATUS_METHOD_NOT_ALLOWED);
        return;
      }
      var validated := vkService.ValidateRequest(HeaderGet(r.header, AUTHORIZATION));
      if validated.Failure? {
        Error(w, validated.error.Message(), STATUS_UNAUTHORIZED);
        return;
      }
      var virtualKey := validated.value;
      var (keyConfig, configured) := vkService.GetKeyConfig(virtualKey);
      if !configured {
        // A validated key is always configured (ValidatedKeyIsConfigured).
        assert false;
      }
      if r.body.None? {
        Error(w, "Failed to read request body", STATUS_BAD_REQUEST);
        return;
      }
      var requestBody := r.body.value;
      var found := providerRegistry.Get(keyConfig.provider);
      if found.Failure? {
        Error(w, found.error, STATUS_INTERNAL_SERVER_ERROR);
        return;
      }
      var prov := found.value;
      var proxyHeader := new Header();
      CopyHeader(proxyHeader, r.header, {AUTHORIZATION});
      prov.SetAuthHeaders(proxyHeader, keyConfig.apiKey);
      var proxyReq := Outbound(r.httpMethod, prov.GetEndpoint(), proxyHeader.entries, requestBody);
      var resp := send(proxyReq);
      if resp.SendFailed? {
        Error(w, "Failed to forward request", STATUS_BAD_GATEWAY);
        return;
      }
      if resp.BodyReadFailed? {
        Error(w, "Failed to read response body", STATUS_BAD_GATEWAY);
        return;
      }
      logger.LogInteraction(LogEntry(virtualKey, prov.GetName(), r.httpMethod, resp.status,
                                     LoggedBody(requestBody, HeaderGet(r.header, CONTENT_ENCODING)),
                                     LoggedBody(resp.body, HeaderGet(resp.header, CONTENT_ENCODING))));
      CopyHeader(w.header, resp.header, {});
      w.WriteHeader(resp.status);
      w.Write(resp.body);
      assert [] + resp.body == resp.body;
    }
  }
}

=== FILE: http.dfy ===
/** The slice of Go's `net/http` that the gateway touches: a header map that
    is mutated in place (`http.Header`), a response writer, and `http.Error`.
    Header names are taken to be in canonical form already; Go canonicalises
    them on every `Add`/`Set`/`Get`. */
module Http {
  import opened Wrappers

  newtype byte = x: int | 0 <= x < 256

  /** `http.Header`: a name maps to the list of its values, in order. */
  type HeaderMap = map<string, seq<string>>

  const AUTHORIZATION := "Authorization"
  const CONTENT_TYPE := "Content-Type"
  const CONTENT_LENGTH := "Content-Length"
  const CONTENT_TYPE_OPTIONS := "X-Content-Type-Options"

  /** All values stored under `name`, none when it is absent. */
  function Values(h: HeaderMap, name: string): seq<string>
  {
    if name in h then h[name] else []
  }

  /** `Header.Get`: the first value stored under `name`, or "" if there is none. */
  function HeaderGet(h: HeaderMap, name: string): (v: string)
    ensures v != "" ==> name in h && |h[name]| > 0 && v == h[name][0]
    ensures name in h && |h[name]| > 0 ==> v == h[name][0]
  {
    if name in h && |h[name]| > 0 then h[name][0] else ""
  }

  /** What a loop `for name, values := range src { if name not skipped { for v
      in values { dst.Add(name, v) } } }` leaves in an empty `dst` once it has
      visited the names in `names`: a name whose value list is empty is never
      added. */
  function Copied(src: HeaderMap, names: set<string>, skip: set<string>): HeaderMap
  {
    map n | n in names && n in src && n !in skip && src[n] != [] :: src[n]
  }

  /** The copy keeps exactly the non-skipped, non-empty entries, each with all
      its values in their original order. */
  lemma CopiedEntries(src: HeaderMap, skip: set<string>, n: string)
    ensures n in Copied(src, src.Keys, skip) <==> n in src && n !in skip && src[n] != []
    ensures n in Copied(src, src.Keys, skip) ==> Copied(src, src.Keys, skip)[n] == src[n]
  {
  }

  /** Visiting one more name extends the copy by that name's entry, if any. */
  lemma CopiedStep(src: HeaderMap, done: set<string>, skip: set<string>, name: string)
    requires name in src && name !in done
    ensures name !in Copied(src, done, skip)
    ensures Copied(src, done + {name}, skip) ==
      if name in skip || src[name] == [] then Copied(src, done, skip)
      else Copied(src, done, skip)[name := src[name]]
  {
  }

  /** A request's or a response's header map, updated in place. */
  class Header {
    var entries: HeaderMap

    constructor ()
      ensures entries == map[]
    {
      entries := map[];
    }

    /** `Header.Add`: appends a value to those already under `name`. */
    method Add(name: string, value: string)
      modifies this
      ensures entries == old(entries)[name := Values(old(entries), name) + [value]]
    {
      entries := entries[name := Values(entries, name) + [value]];
    }

    /** `Header.Set`: replaces every value under `name` by the single `value`. */
    method Set(name: string, value: string)
      modifies this
      ensures entries == old(entries)[name := [value]]
    {
      entries := entries[name := [value]];
    }

    /** `Header.Del`: removes `name` altogether. */
    method Del(name: string)
      modifies this
      ensures entries == old(entries) - {name}
    {
      entries := entries - {name};
    }
  }

  /** The inner loop of the header copy: adds `values` under `name`, one by
      one, to a header that does not hold `name` yet. */
  method AddAll(dst: Header, name: string, values: seq<string>)
    requires name !in dst.entries
    modifies dst
    ensures dst.entries == if values == [] then old(dst.entries) else old(dst.entries)[name := values]
  {
    var i := 0;
    while i < |values|
      invariant 0 <= i <= |values|
      invariant dst.entries == if i == 0 then old(dst.entries) else old(dst.entries)[name := values[..i]]
    {
      assert values[..i + 1] == values[..i] + [values[i]];
      dst.Add(name, values[i]);
      i := i + 1;
    }
    assert values[..i] == values;
  }

  /** The header-copy loop of both `ServeHTTP` variants: every entry of `src`
      whose name is not in `skip` is added to the (empty) `dst`, value by value.
      The outer loop visits the names in an unspecified order, as ranging over
      a Go map does; the result does not depend on that order. */
  method CopyHeader(dst: Header, src: HeaderMap, skip: set<string>)
    requires dst.entries == map[]
    modifies dst
    ensures dst.entries == Copied(src, src.Keys, skip)
  {
    var todo := src.Keys;
    while todo != {}
      invariant todo <= src.Keys
      invariant dst.entries == Copied(src, src.Keys - todo, skip)
      decreases |todo|
    {
      var name :| name in todo;
      ghost var done := src.Keys - todo;
      CopiedStep(src, done, skip, name);
      if name !in skip {
        AddAll(dst, name, src[name]);
      }
      assert src.Keys - (todo - {name}) == done + {name};
      todo := todo - {name};
    }
  }

  /** What the caller of the proxy finally receives. `Text` is a body written
      by `http.Error`, `Bytes` one written by `ResponseWriter.Write`. */
  datatype Body = Text(text: string) | Bytes(data: seq<byte>)

  datatype Response = Response(status: int, header: HeaderMap, body: Body)

  /** The headers `http.Error` sets on an otherwise empty response header. */
  const ERROR_HEADER: HeaderMap :=
    map[CONTENT_TYPE := ["text/plain; charset=utf-8"], CONTENT_TYPE_OPTIONS := ["nosniff"]]

  /** The response `http.Error(w, message, code)` produces on a fresh writer:
      a plain-text body holding the message and a newline. */
  function ErrorResponse(code: int, message: string): (r: Response)
    ensures r.status == code && r.body.Text?
    ensures r.body.text == message + "\n"
  {
    Response(code, ERROR_HEADER, Text(message + "\n"))
  }

  /** `http.NotFound` writes "404 page not found" with status 404. */
  const NOT_FOUND := ErrorResponse(404, "404 page not found")

  /** `http.ResponseWriter`: a header map that can be changed until the
      status line is written, the status, and the body written so far. */
  class ResponseWriter {
    const header: Header
    var status: Option<int>
    var body: Body

    constructor ()
      ensures fresh(header) && header.entries == map[]
      ensures status == None && body == Bytes([])
    {
      header := new Header();
      status := None;
      body := Bytes([]);
    }

    /** The response the client sees, once the status has been written. */
    function Sent(): Response
      reads this, header
      requires status.Some?
    {
      Response(status.value, header.entries, body)
    }

    /** `WriteHeader`: fixes the status; it may be written only once. */
    method WriteHeader(code: int)
      requires status.None?
      modifies this
      ensures status == Some(code) && body == old(body)
    {
      status := Some(code);
    }

    /** `Write`: appends bytes to the body after the status. */
    method Write(data: seq<byte>)
      requires status.Some? && body.Bytes?
      modifies this
      ensures status == old(status) && body == Bytes(old(body).data + data)
    {
      body := Bytes(body.data + data);
    }
  }

  /** `http.Error`: drops Content-Length, sets a plain-text Content-Type and
      `X-Content-Type-Options: nosniff`, writes the status, then the message
      followed by a newline. */
  method Error(w: ResponseWriter, message: string, code: int)
    requires w.status.None?
    modifies w, w.header
    ensures w.header.entries ==
      (old(w.header.entries) - {CONTENT_LENGTH})[CONTENT_TYPE := ["text/plain; charset=utf-8"]][CONTENT_TYPE_OPTIONS := ["nosniff"]]
    ensures w.status == Some(code) && w.body == Text(message + "\n")
  {
    w.header.Del(CONTENT_LENGTH);
    w.header.Set(CONTENT_TYPE, "text/plain; charset=utf-8");
    w.header.Set(CONTENT_TYPE_OPTIONS, "nosniff");
    w.WriteHeader(code);
    w.body := Text(message + "\n");
  }
}

=== FILE: logging.dfy ===
/** The logging collaborator: it receives one finished record per completed
    request. Formatting, JSON parsing and file output are not modelled; a
    record keeps the bytes and the Content-Encoding it would parse. */
module Logging {
  import opened Http

  /** A body as handed to `ParseJSONBody(body, contentEncoding)`, which
      decompresses gzip, parses JSON, and falls back to `{"raw": body}`. */
  datatype LoggedBody = LoggedBody(body: seq<byte>, contentEncoding: string)

  /** `LogEntry`, without its timestamp and duration. */
  datatype LogEntry = LogEntry(
    virtualKey: string,
    provider: string,
    httpMethod: string,
    status: int,
    request: LoggedBody,
    response: LoggedBody)

  /** The records written so far, oldest first. */
  class Logger {
    var entries: seq<LogEntry>

    constructor ()
      ensures entries == []
    {
      entries := [];
    }

    /** `LogInteraction`: appends one record; its own failures never reach the caller. */
    method LogInteraction(entry: LogEntry)
      modifies this
      ensures entries == old(entries) + [entry]
    {
      entries := entries + [entry];
    }
  }
}

=== FILE: maingateway.dfy ===
/** The self-contained gateway of `main.go`: the same decision chain as the
    package gateway, with the key validation, the provider-to-URL switch and
    the authentication switch written inline, and its own error texts. The
    lemmas at the end compare it with the package gateway. */
module MainGateway {
  import opened Wrappers
  import opened Strings
  import opened Http
  import opened Logging
  import VirtualKey
  import Providers
  import Pkg = Gateway

  type KeyConfig = VirtualKey.KeyConfig
  type Request = Pkg.Request
  type Outbound = Pkg.Outbound
  type Upstream = Pkg.Upstream
  type Outcome = Pkg.Outcome

  const OPENAI_URL := "https://api.openai.com/v1/chat/completions"
  const ANTHROPIC_URL := "https://api.anthropic.com/v1/messages"
  const DEEPSEEK_URL := "https://api.deepseek.com/v1/chat/completions"

  const MISSING_HEADER := "Missing Authorization header"
  const MALFORMED_HEADER := "Invalid Authorization header format. Expected 'Bearer <virtual-key>'"
  const INVALID_KEY := "Invalid virtual key"
  const UNSUPPORTED_PROVIDER := "Unsupported provider"

  /** The inline `switch strings.ToLower(provider)` choosing the target URL;
      `None` is the default branch, which answers 500. */
  function TargetURL(provider: string): (r: Option<string>)
    ensures r.Some? <==> ToLower(provider) in Providers.SUPPORTED
  {
    match ToLower(provider)
    case "openai" => Some(OPENAI_URL)
    case "anthropic" => Some(ANTHROPIC_URL)
    case "deepseek" => Some(DEEPSEEK_URL)
    case _ => None
  }

  /** The header map after the inline authentication `switch`: a bearer token
      for "openai" and "deepseek", the key and API version for "anthropic",
      nothing for any other name. */
  function InlineAuthHeaders(h: HeaderMap, provider: string, apiKey: string): (r: HeaderMap)
    ensures ToLower(provider) !in Providers.SUPPORTED ==> r == h
    ensures forall n :: n in h && n !in {AUTHORIZATION, Providers.X_API_KEY, Providers.ANTHROPIC_VERSION} ==>
      n in r && r[n] == h[n]
  {
    var p := ToLower(provider);
    if p == "openai" || p == "deepseek" then h[AUTHORIZATION := ["Bearer " + apiKey]]
    else if p == "anthropic" then h[Providers.X_API_KEY := [apiKey]][Providers.ANTHROPIC_VERSION := ["2023-06-01"]]
    else h
  }

  /** The inline authentication `switch`, applied to the outbound headers in place. */
  method SetAPIKey(h: Header, provider: string, apiKey: string)
    modifies h
    ensures h.entries == InlineAuthHeaders(old(h.entries), provider, apiKey)
  {
    var p := ToLower(provider);
    if p == "openai" || p == "deepseek" {
      h.Set(AUTHORIZATION, "Bearer " + apiKey);
    } else if p == "anthropic" {
      h.Set(Providers.X_API_KEY, apiKey);
      h.Set(Providers.ANTHROPIC_VERSION, "2023-06-01");
    }
  }

  /** The decision chain of `main.go`'s `ServeHTTP`, as a value. */
  function Serve(config: map<string, KeyConfig>, r: Request, send: Outbound -> Upstream): (o: Outcome)
    ensures o.logged.Some? <==> o.forwarded.Some? && send(o.forwarded.value).Completed?
    ensures o.forwarded.Some? ==> o.forwarded.value.url in {OPENAI_URL, ANTHROPIC_URL, DEEPSEEK_URL}
    ensures o.logged.Some? ==>
      var virtualKey := TrimPrefix(HeaderGet(r.header, AUTHORIZATION), VirtualKey.BEARER);
      && virtualKey in config
      && o.logged.value.virtualKey == virtualKey
      && o.logged.value.provider == config[virtualKey].provider
      && o.logged.value.httpMethod == r.httpMethod
      && o.logged.value.status == send(o.forwarded.value).status
      && r.body.Some?
      && o.logged.value.request == LoggedBody(r.body.value, "")
      && o.logged.value.response == LoggedBody(send(o.forwarded.value).body, "")
  {
    if r.path != Pkg.CHAT_COMPLETIONS_PATH then Pkg.Rejected(NOT_FOUND)
    else if r.httpMethod != Pkg.METHOD_POST then
      Pkg.Rejected(ErrorResponse(Pkg.STATUS_METHOD_NOT_ALLOWED, "Method not allowed"))
    else
      var authHeader := HeaderGet(r.header, AUTHORIZATION);
      if authHeader == "" then Pkg.Rejected(ErrorResponse(Pkg.STATUS_UNAUTHORIZED, MISSING_HEADER))
      else
        var virtualKey := TrimPrefix(authHeader, VirtualKey.BEARER);
        if virtualKey == authHeader then Pkg.Rejected(ErrorResponse(Pkg.STATUS_UNAUTHORIZED, MALFORMED_HEADER))
        else if virtualKey !in config then Pkg.Rejected(ErrorResponse(Pkg.STATUS_UNAUTHORIZED, INVALID_KEY))
        else
          var keyConfig := config[virtualKey];
          if r.body.None? then Pkg.Rejected(ErrorResponse(Pkg.STATUS_BAD_REQUEST, "Failed to read request body"))
          else match TargetURL(keyConfig.provider)
            case None => Pkg.Rejected(ErrorResponse(Pkg.STATUS_INTERNAL_SERVER_ERROR, UNSUPPORTED_PROVIDER))
            case Some(targetURL) =>
              var header := InlineAuthHeaders(Copied(r.header, r.header.Keys, {AUTHORIZATION}), keyConfig.provider, keyConfig.apiKey);
              var out := Pkg.Outbound(r.httpMethod, targetURL, header, r.body.value);
              match send(out)
              case SendFailed =>
                Pkg.Outcome(ErrorResponse(Pkg.STATUS_BAD_GATEWAY, "Failed to forward request"), Some(out), None)
              case BodyReadFailed =>
                Pkg.Outcome(ErrorResponse(Pkg.STATUS_BAD_GATEWAY, "Failed to read response body"), Some(out), None)
              case Completed(status, respHeader, body) =>
                // json.Unmarshal without decompression: ParseJSONBody with no encoding.
                var entry := LogEntry(virtualKey, keyConfig.provider, r.httpMethod, status,
                                      LoggedBody(r.body.value, ""), LoggedBody(body, ""));
                Pkg.Outcome(Response(status, Copied(respHeader, respHeader.Keys, {}), Bytes(body)), Some(out), Some(entry))
  }

  /** `main.go`'s own rejections, in order: 404 and 405 for the route, its
      three 401 texts, the 400 for an unreadable body and a 500 that does not
      name the provider. None of them forwards or logs anything. */
  lemma InlineRejections(config: map<string, KeyConfig>, r: Request, send: Outbound -> Upstream)
    ensures
      var o := Serve(config, r, send);
      var routed := r.path == "/chat/completions" && r.httpMethod == "POST";
      var authHeader := HeaderGet(r.header, "Authorization");
      var virtualKey := TrimPrefix(authHeader, "Bearer ");
      && (r.path != "/chat/completions" ==>
            o == Pkg.Rejected(ErrorResponse(404, "404 page not found")))
      && (r.path == "/chat/completions" && r.httpMethod != "POST" ==>
            o == Pkg.Rejected(ErrorResponse(405, "Method not allowed")))
      && (routed && authHeader == "" ==>
            o == Pkg.Rejected(ErrorResponse(401, "Missing Authorization header")))
      && (routed && authHeader != "" && virtualKey == authHeader ==>
            o == Pkg.Rejected(ErrorResponse(401, "Invalid Authorization header format. Expected 'Bearer <virtual-key>'")))
      && (routed && authHeader != "" && virtualKey != authHeader && virtualKey !in config ==>
            o == Pkg.Rejected(ErrorResponse(401, "Invalid virtual key")))
      && (routed && authHeader != "" && virtualKey != authHeader && virtualKey in config && r.body.None? ==>
            o == Pkg.Rejected(ErrorResponse(400, "Failed to read request body")))
      && (routed && authHeader != "" && virtualKey != authHeader && virtualKey in config && r.body.Some?
          && ToLower(config[virtualKey].provider) !in {"openai", "anthropic", "deepseek"} ==>
            o == Pkg.Rejected(ErrorResponse(500, "Unsupported provider")))
  {
  }

  /** The inline URL switch resolves exactly the names the registry resolves,
      to the same endpoints. */
  lemma TargetURLAgrees(provider: string)
    ensures TargetURL(provider).Some? <==> Providers.NewRegistry().Get(provider).Success?
    ensures TargetURL(provider).Some? ==>
      TargetURL(provider).value == Providers.NewRegistry().Get(provider).value.GetEndpoint()
  {
  }

  /** The inline authentication switch stamps the same headers as the
      resolved provider's `SetAuthHeaders`. */
  lemma InlineAuthAgrees(h: HeaderMap, provider: string, apiKey: string)
    requires Providers.NewRegistry().Get(provider).Success?
    ensures InlineAuthHeaders(h, provider, apiKey) ==
      Providers.NewRegistry().Get(provider).value.AuthHeaders(h, apiKey)
  {
  }

  /** The inline key checks accept exactly the headers `ValidateRequest`
      accepts and yield the same key; each rejection is a 401 in both. */
  lemma InlineValidationAgrees(config: map<string, KeyConfig>, authHeader: string)
    ensures
      var virtualKey := TrimPrefix(authHeader, VirtualKey.BEARER);
      var accepted := authHeader != "" && virtualKey != authHeader && virtualKey in config;
      && (accepted <==> VirtualKey.Service(config).ValidateRequest(authHeader).Success?)
      && (accepted ==> VirtualKey.Service(config).ValidateRequest(authHeader).value == virtualKey)
  {
    TrimPrefixUnchanged(authHeader, VirtualKey.BEARER);
  }

  /** The two gateways answer every request with the same status and forward
      the same request. Once a request is forwarded they answer identically
      and log the same record, except that `main.go` logs the provider name
      as configured (the package gateway logs its lower-case form) and does
      not decompress bodies for the log. */
  lemma VariantsAgree(config: map<string, KeyConfig>, r: Request, send: Outbound -> Upstream)
    ensures
      var pkg := Pkg.Serve(VirtualKey.Service(config), Providers.NewRegistry(), r, send);
      var inline := Serve(config, r, send);
      && inline.response.status == pkg.response.status
      && inline.forwarded == pkg.forwarded
      && (pkg.forwarded.Some? ==> inline.response == pkg.response)
      && (inline.logged.Some? <==> pkg.logged.Some?)
      && (pkg.logged.Some? ==>
            && ToLower(inline.logged.value.provider) == pkg.logged.value.provider
            && inline.logged.value.provider ==
                 config[VirtualKey.Service(config).ValidateRequest(HeaderGet(r.header, AUTHORIZATION)).value].provider
            && inline.logged.value == pkg.logged.value.(
                 provider := inline.logged.value.provider,
                 request := LoggedBody(pkg.logged.value.request.body, ""),
                 response := LoggedBody(pkg.logged.value.response.body, "")))
  {
    var authHeader := HeaderGet(r.header, AUTHORIZATION);
    InlineValidationAgrees(config, authHeader);
    var svc := VirtualKey.Service(config);
    if r.path == Pkg.CHAT_COMPLETIONS_PATH && r.httpMethod == Pkg.METHOD_POST && svc.ValidateRequest(authHeader).Success? {
      var virtualKey := svc.ValidateRequest(authHeader).value;
      var keyConfig := config[virtualKey];
      TargetURLAgrees(keyConfig.provider);
      var found := Providers.NewRegistry().Get(keyConfig.provider);
      if found.Success? {
        InlineAuthAgrees(Copied(r.header, r.header.Keys, {AUTHORIZATION}), keyConfig.provider, keyConfig.apiKey);
        Providers.GetSupported(keyConfig.provider);
      }
    }
  }

  /** `main.go`'s `Gateway`: the configuration map and the log sink. */
  class Gateway {
    const config: map<string, KeyConfig>
    const logger: Logger

    constructor (config: map<string, KeyConfig>, logFile: Logger)
      ensures this.config == config && logger == logFile
    {
      this.config := config;
      logger := logFile;
    }

    /** `ServeHTTP`: writes exactly one response, the one `Serve` decides, and
        logs exactly the record `Serve` decides. */
    method ServeHTTP(w: ResponseWriter, r: Request, send: Outbound -> Upstream)
      requires w.status.None? && w.header.entries == map[] && w.body == Bytes([])
      modifies w, w.header, logger
      ensures w.status.Some?
      ensures w.Sent() == Serve(config, r, send).response
      ensures logger.entries == old(logger.entries) + Pkg.LogRecords(Serve(config, r, send))
    {
      if r.path != Pkg.CHAT_COMPLETIONS_PATH {
        Error(w, "404 page not found", 404);
        return;
      }
      if r.httpMethod != Pkg.METHOD_POST {
        Error(w, "Method not allowed", Pkg.STATUS_METHOD_NOT_ALLOWED);
        return;
      }
      var authHeader := HeaderGet(r.header, AUTHORIZATION);
      if authHeader == "" {
        Error(w, MISSING_HEADER, Pkg.STATUS_UNAUTHORIZED);
        return;
      }
      var virtualKey := TrimPrefix(authHeader, VirtualKey.BEARER);
      if virtualKey == authHeader {
        Error(w, MALFORMED_HEADER, Pkg.STATUS_UNAUTHORIZED);
        return;
      }
      if virtualKey !in config {
        Error(w, INVALID_KEY, Pkg.STATUS_UNAUTHORIZED);
        return;
      }
      var keyConfig := config[virtualKey];
      if r.body.None? {
        Error(w, "Failed to read request body", Pkg.STATUS_BAD_REQUEST);
        return;
      }
      var requestBody := r.body.value;
      var targetURL := TargetURL(keyConfig.provider);
      if targetURL.None? {
        Error(w, UNSUPPORTED_PROVIDER, Pkg.STATUS_INTERNAL_SERVER_ERROR);
        return;
      }
      var proxyHeader := new Header();
      CopyHeader(proxyHeader, r.header, {AUTHORIZATION});
      SetAPIKey(proxyHeader, keyConfig.provider, keyConfig.apiKey);
      var proxyReq := Pkg.Outbound(r.httpMethod, targetURL.value, proxyHeader.entries, requestBody);
      var resp := send(proxyReq);
      if resp.SendFailed? {
        Error(w, "Failed to forward request", Pkg.STATUS_BAD_GATEWAY);
        return;
      }
      if resp.BodyReadFailed? {
        Error(w, "Failed to read response body", Pkg.STATUS_BAD_GATEWAY);
        return;
      }
      logger.LogInteraction(LogEntry(virtualKey, keyConfig.provider, r.httpMethod, resp.status,
                                     LoggedBody(requestBody, ""), LoggedBody(resp.body, "")));
      CopyHeader(w.header, resp.header, {});
      w.WriteHeader(resp.status);
      w.Write(resp.body);
      assert [] + resp.body == resp.body;
    }
  }
}

=== FILE: provider.dfy ===
/** The closed set of upstream providers and the registry that resolves a
    configured provider name to one of them. Each provider has a fixed
    endpoint, a fixed name, and its own way of stamping the real API key onto
    the outbound request's headers. */
module Providers {
  import opened Wrappers
  import opened Strings
  import opened Http

  const OPENAI_URL := "https://api.openai.com/v1/chat/completions"
  const ANTHROPIC_URL := "https://api.anthropic.com/v1/messages"
  const DEEPSEEK_URL := "https://api.deepseek.com/v1/chat/completions"

  /** `Header.Set` canonicalises "x-api-key" and "anthropic-version". */
  const X_API_KEY := "X-Api-Key"
  const ANTHROPIC_VERSION := "Anthropic-Version"
  const ANTHROPIC_API_VERSION := "2023-06-01"

  datatype Provider = OpenAI | Anthropic | DeepSeek {

    function GetEndpoint(): string
    {
      match this
      case OpenAI => OPENAI_URL
      case Anthropic => ANTHROPIC_URL
      case DeepSeek => DEEPSEEK_URL
    }

    function GetName(): string
    {
      match this
      case OpenAI => "openai"
      case Anthropic => "anthropic"
      case DeepSeek => "deepseek"
    }

    /** The header names `SetAuthHeaders` writes. */
    function AuthNames(): set<string>
    {
      if Anthropic? then {X_API_KEY, ANTHROPIC_VERSION} else {AUTHORIZATION}
    }

    /** The header map after `SetAuthHeaders(h, apiKey)`: a bearer token for
        OpenAI and DeepSeek, the key and the API version for Anthropic. Every
        header it writes holds exactly one value afterwards; every other
        header is left as it was. */
    function AuthHeaders(h: HeaderMap, apiKey: string): (r: HeaderMap)
      ensures r.Keys == h.Keys + AuthNames()
      ensures forall n :: n in h && n !in AuthNames() ==> r[n] == h[n]
      ensures !Anthropic? ==> r[AUTHORIZATION] == ["Bearer " + apiKey]
      ensures Anthropic? ==> r[X_API_KEY] == [apiKey] && r[ANTHROPIC_VERSION] == [ANTHROPIC_API_VERSION]
    {
      match this
      case OpenAI => h[AUTHORIZATION := ["Bearer " + apiKey]]
      case Anthropic => h[X_API_KEY := [apiKey]][ANTHROPIC_VERSION := [ANTHROPIC_API_VERSION]]
      case DeepSeek => h[AUTHORIZATION := ["Bearer " + apiKey]]
    }

    /** `SetAuthHeaders`: stamps the real API key onto the request's headers in place. */
    method SetAuthHeaders(h: Header, apiKey: string)
      modifies h
      ensures h.entries == AuthHeaders(old(h.entries), apiKey)
    {
      match this
      case OpenAI =>
        h.Set(AUTHORIZATION, "Bearer " + apiKey);
      case Anthropic =>
        h.Set(X_API_KEY, apiKey);
        h.Set(ANTHROPIC_VERSION, ANTHROPIC_API_VERSION);
      case DeepSeek =>
        h.Set(AUTHORIZATION, "Bearer " + apiKey);
    }
  }

  /** OpenAI: its endpoint and name, and a stamp that replaces every
      `Authorization` value by the one bearer token, leaves every other
      header alone, and changes nothing when applied again. */
  lemma OpenAIContract(h: HeaderMap, apiKey: string)
    ensures OpenAI.GetEndpoint() == "https://api.openai.com/v1/chat/completions"
    ensures OpenAI.GetName() == "openai"
    ensures AUTHORIZATION in OpenAI.AuthHeaders(h, apiKey)
    ensures OpenAI.AuthHeaders(h, apiKey)[AUTHORIZATION] == ["Bearer " + apiKey]
    ensures forall n :: n in h && n != AUTHORIZATION ==> OpenAI.AuthHeaders(h, apiKey)[n] == h[n]
    ensures OpenAI.AuthHeaders(OpenAI.AuthHeaders(h, apiKey), apiKey) == OpenAI.AuthHeaders(h, apiKey)
  {
  }

  /** Anthropic: its endpoint and name, and a stamp that sets the key and the
      API version, each as a single value, never touches `Authorization` or
      any other header, and changes nothing when applied again. */
  lemma AnthropicContract(h: HeaderMap, apiKey: string)
    ensures Anthropic.GetEndpoint() == "https://api.anthropic.com/v1/messages"
    ensures Anthropic.GetName() == "anthropic"
    ensures X_API_KEY in Anthropic.AuthHeaders(h, apiKey) && ANTHROPIC_VERSION in Anthropic.AuthHeaders(h, apiKey)
    ensures Anthropic.AuthHeaders(h, apiKey)[X_API_KEY] == [apiKey]
    ensures Anthropic.AuthHeaders(h, apiKey)[ANTHROPIC_VERSION] == ["2023-06-01"]
    ensures AUTHORIZATION in Anthropic.AuthHeaders(h, apiKey) <==> AUTHORIZATION in h
    ensures forall n :: n in h && n != X_API_KEY && n != ANTHROPIC_VERSION ==> Anthropic.AuthHeaders(h, apiKey)[n] == h[n]
    ensures Anthropic.AuthHeaders(Anthropic.AuthHeaders(h, apiKey), apiKey) == Anthropic.AuthHeaders(h, apiKey)
  {
  }

  /** DeepSeek: its endpoint and name, and the same bearer-token stamp as OpenAI. */
  lemma DeepSeekContract(h: HeaderMap, apiKey: string)
    ensures DeepSeek.GetEndpoint() == "https://api.deepseek.com/v1/chat/completions"
    ensures DeepSeek.GetName() == "deepseek"
    ensures AUTHORIZATION in DeepSeek.AuthHeaders(h, apiKey)
    ensures DeepSeek.AuthHeaders(h, apiKey)[AUTHORIZATION] == ["Bearer " + apiKey]
    ensures forall n :: n in h && n != AUTHORIZATION ==> DeepSeek.AuthHeaders(h, apiKey)[n] == h[n]
    ensures DeepSeek.AuthHeaders(DeepSeek.AuthHeaders(h, apiKey), apiKey) == DeepSeek.AuthHeaders(h, apiKey)
  {
  }

  /** The three endpoints and the three names are pairwise distinct. */
  lemma ProvidersDistinct(p: Provider, q: Provider)
    ensures p.GetName() == q.GetName() <==> p == q
    ensures p.GetEndpoint() == q.GetEndpoint() <==> p == q
  {
  }

  /** The provider table the gateway looks names up in. */
  datatype Registry = Registry(providers: map<string, Provider>) {

    /** `Registry.Get`: looks the lower-cased name up in the table; an unknown
        name yields the "unsupported provider" error naming it as given. */
    function Get(name: string): (r: Result<Provider, string>)
      ensures r.Success? <==> ToLower(name) in providers
      ensures r.Success? ==> r.value == providers[ToLower(name)]
      ensures r.Failure? ==> r.error == "unsupported provider: " + name
    {
      var key := ToLower(name);
      if key in providers then Success(providers[key]) else Failure("unsupported provider: " + name)
    }
  }

  const SUPPORTED: set<string> := {"openai", "anthropic", "deepseek"}

  /** `NewRegistry`: the fixed three-entry table, each provider under its own name. */
  function NewRegistry(): (r: Registry)
    ensures r.providers.Keys == SUPPORTED
    ensures forall n :: n in r.providers ==> r.providers[n].GetName() == n
    ensures forall p: Provider :: p.GetName() in r.providers && r.providers[p.GetName()] == p
  {
    Registry(map["openai" := OpenAI, "anthropic" := Anthropic, "deepseek" := DeepSeek])
  }

  /** `Get` succeeds exactly for the three supported names, in any letter
      case, and the provider it returns carries the lower-cased name. */
  lemma GetSupported(name: string)
    ensures NewRegistry().Get(name).Success? <==> ToLower(name) in SUPPORTED
    ensures NewRegistry().Get(name).Success? ==> NewRegistry().Get(name).value.GetName() == ToLower(name)
    ensures NewRegistry().Get(name).Failure? ==> NewRegistry().Get(name).error == "unsupported provider: " + name
  {
  }

  /** `Get` is case-insensitive: a name and its lower-cased form resolve alike
      (only the error text, which quotes the name as given, differs). */
  lemma GetCaseInsensitive(name: string)
    ensures NewRegistry().Get(name).Success? == NewRegistry().Get(ToLower(name)).Success?
    ensures NewRegistry().Get(name).Success? ==> NewRegistry().Get(name).value == NewRegistry().Get(ToLower(name)).value
  {
    ToLowerIdempotent(name);
  }

  /** Each provider's own name resolves back to it. */
  lemma GetByName(p: Provider)
    ensures NewRegistry().Get(p.GetName()) == Success(p)
  {
    ToLowerOfLower(p.GetName());
  }
}

=== FILE: strings.dfy ===
/** The two functions of Go's `strings` package that the gateway relies on. */
module Strings {

  /** `strings.TrimPrefix`: removes `prefix` once if `s` starts with it,
      otherwise returns `s` unchanged. */
  function TrimPrefix(s: string, prefix: string): (r: string)
    ensures prefix <= s ==> prefix + r == s
    ensures !(prefix <= s) ==> r == s
  {
    if prefix <= s then s[|prefix|..] else s
  }

  /** With a non-empty prefix, "TrimPrefix changed nothing" is exactly
      "s does not start with the prefix": this is the test the Go code uses
      to detect a malformed Authorization header. */
  lemma TrimPrefixUnchanged(s: string, prefix: string)
    requires prefix != ""
    ensures TrimPrefix(s, prefix) == s <==> !(prefix <= s)
  {
    if prefix <= s {
      assert |TrimPrefix(s, prefix)| == |s| - |prefix| < |s|;
    }
  }

  predicate IsUpper(c: char) { 'A' <= c <= 'Z' }

  /** Lower-cases one ASCII letter and leaves every other character alone. */
  function LowerChar(c: char): (r: char)
    ensures !IsUpper(r)
    ensures !IsUpper(c) ==> r == c
    ensures IsUpper(c) ==> r as int == c as int + 32
  {
    if IsUpper(c) then (c as int + 32) as char else c
  }

  /** `strings.ToLower`, restricted to ASCII case mapping. */
  function ToLower(s: string): (r: string)
    ensures |r| == |s|
    ensures forall i :: 0 <= i < |s| ==> r[i] == LowerChar(s[i])
  {
    if s == [] then [] else [LowerChar(s[0])] + ToLower(s[1..])
  }

  /** Lower-casing twice is lower-casing once. */
  lemma ToLowerIdempotent(s: string)
    ensures ToLower(ToLower(s)) == ToLower(s)
  {
    var once := ToLower(s);
    assert forall i :: 0 <= i < |once| ==> ToLower(once)[i] == once[i];
  }

  /** A string without upper-case letters is its own lower-case form. */
  lemma ToLowerOfLower(s: string)
    requires forall i :: 0 <= i < |s| ==> !IsUpper(s[i])
    ensures ToLower(s) == s
  {
  }
}

=== FILE: usage.dfy ===
/** The per-virtual-key hourly quota tracker: for each key it keeps a request
    count and the start of the current one-hour window. Time is an explicit
    parameter `now`, in nanoseconds, standing for `time.Now()`. */
module Usage {
  import opened Wrappers

  /** `time.Hour` in nanoseconds. */
  const HOUR: int := 3_600_000_000_000

  /** `VirtualKeyUsage`: requests counted in the window starting at `windowStart`. */
  datatype VirtualKeyUsage = VirtualKeyUsage(requestCount: int, windowStart: int)

  type UsageMap = map<string, VirtualKeyUsage>

  /** The error `CheckQuota` returns; its text names the configured limit. */
  datatype QuotaError = QuotaExceeded(limit: int)

  /** The entry `getOrCreateUsage` yields: the stored one, or a fresh window
      starting at `now` with nothing counted. */
  function Observed(usage: UsageMap, key: string, now: int): (u: VirtualKeyUsage)
    ensures key in usage ==> u == usage[key]
    ensures key !in usage ==> u.requestCount == 0 && u.windowStart == now
  {
    if key in usage then usage[key] else VirtualKeyUsage(0, now)
  }

  /** The window reset both quota operations perform first: a window at least
      an hour old restarts at `now` with a zero count, a younger one is kept.
      Either way the window is not expired afterwards. */
  function Refreshed(u: VirtualKeyUsage, now: int): (r: VirtualKeyUsage)
    ensures now - r.windowStart < HOUR
    ensures now - u.windowStart >= HOUR ==> r == VirtualKeyUsage(0, now)
    ensures now - u.windowStart < HOUR ==> r == u
  {
    if now - u.windowStart >= HOUR then VirtualKeyUsage(0, now) else u
  }

  /** The key's entry as both operations see it after the lazy creation and the reset. */
  function Current(usage: UsageMap, key: string, now: int): VirtualKeyUsage
  {
    Refreshed(Observed(usage, key, now), now)
  }

  /** The usage map after `CheckQuota(key)` at `now`. */
  function AfterCheck(usage: UsageMap, key: string, now: int): (r: UsageMap)
    ensures r.Keys == usage.Keys + {key}
    ensures forall k :: k in usage && k != key ==> r[k] == usage[k]
  {
    usage[key := Current(usage, key, now)]
  }

  /** Whether `CheckQuota(key)` at `now` reports the quota exceeded. */
  predicate Exceeded(usage: UsageMap, key: string, now: int, limit: int)
  {
    Current(usage, key, now).requestCount >= limit
  }

  /** The usage map after `RecordRequest(key)` at `now`. */
  function AfterRecord(usage: UsageMap, key: string, now: int): (r: UsageMap)
    ensures r.Keys == usage.Keys + {key}
    ensures forall k :: k in usage && k != key ==> r[k] == usage[k]
  {
    var u := Current(usage, key, now);
    usage[key := u.(requestCount := u.requestCount + 1)]
  }

  /** No stored count is negative. */
  ghost predicate CountsValid(usage: UsageMap)
  {
    forall k :: k in usage ==> usage[k].requestCount >= 0
  }

  /** `CheckQuota` never increments: the key's count afterwards is its count
      before, or zero after a reset. */
  lemma CheckNeverIncrements(usage: UsageMap, key: string, now: int)
    requires CountsValid(usage)
    ensures CountsValid(AfterCheck(usage, key, now))
    ensures 0 <= AfterCheck(usage, key, now)[key].requestCount <= Observed(usage, key, now).requestCount
  {
  }

  /** `RecordRequest` leaves the count exactly one above the post-reset value
      that `CheckQuota` would leave, in the same window. */
  lemma RecordAddsOne(usage: UsageMap, key: string, now: int)
    ensures AfterRecord(usage, key, now)[key].requestCount == AfterCheck(usage, key, now)[key].requestCount + 1
    ensures AfterRecord(usage, key, now)[key].windowStart == AfterCheck(usage, key, now)[key].windowStart
  {
  }

  /** A check has no effect that a later operation at the same instant can
      observe: checking twice is checking once, and check-then-record is
      record. */
  lemma CheckIsInvisible(usage: UsageMap, key: string, now: int, limit: int)
    ensures AfterCheck(AfterCheck(usage, key, now), key, now) == AfterCheck(usage, key, now)
    ensures AfterRecord(AfterCheck(usage, key, now), key, now) == AfterRecord(usage, key, now)
    ensures Exceeded(AfterCheck(usage, key, now), key, now, limit) == Exceeded(usage, key, now, limit)
  {
  }

  /** Once the key's window is an hour old, the next check admits (for any
      positive limit) and the following record restarts the count at one. */
  lemma WindowReset(usage: UsageMap, key: string, now: int, limit: int)
    requires key in usage && now - usage[key].windowStart >= HOUR
    requires limit > 0
    ensures !Exceeded(usage, key, now, limit)
    ensures AfterCheck(usage, key, now)[key] == VirtualKeyUsage(0, now)
    ensures AfterRecord(AfterCheck(usage, key, now), key, now)[key] == VirtualKeyUsage(1, now)
  {
  }

  /** The usage map after recording one request at each instant of `times`, in order. */
  function RecordAll(usage: UsageMap, key: string, times: seq<int>): UsageMap
    decreases |times|
  {
    if times == [] then usage else RecordAll(AfterRecord(usage, key, times[0]), key, times[1..])
  }

  /** Recording at instants that all fall within an hour of `w`, starting from
      no entry or from an entry whose window started no earlier than `w`,
      never resets the window: the count grows by exactly one per request. */
  lemma {:induction false} RecordAllWithinWindow(usage: UsageMap, key: string, times: seq<int>, w: int)
    requires forall i :: 0 <= i < |times| ==> w <= times[i] < w + HOUR
    requires key in usage ==> w <= usage[key].windowStart
    requires key in usage || times != []
    decreases |times|
    ensures key in RecordAll(usage, key, times)
    ensures RecordAll(usage, key, times)[key].windowStart ==
      if key in usage then usage[key].windowStart else times[0]
    ensures RecordAll(usage, key, times)[key].requestCount ==
      (if key in usage then usage[key].requestCount else 0) + |times|
    ensures forall k :: k in usage && k != key ==> k in RecordAll(usage, key, times) && RecordAll(usage, key, times)[k] == usage[k]
  {
    if times != [] {
      var next := AfterRecord(usage, key, times[0]);
      assert next[key].windowStart == if key in usage then usage[key].windowStart else times[0];
      assert next[key].requestCount == (if key in usage then usage[key].requestCount else 0) + 1;
      RecordAllWithinWindow(next, key, times[1..], w);
    }
  }

  /** Within one hour of `w`, starting from no entry or from a window that
      started no earlier than `w` with count c, after N recorded requests a
      check fails exactly when c + N reaches the limit (c is 0 for a new key),
      and the check leaves the count at c + N. With limit N and a fresh
      window, the check after N records fails. */
  lemma QuotaExhausted(usage: UsageMap, key: string, times: seq<int>, checkAt: int, w: int, limit: int)
    requires key in usage ==> w <= usage[key].windowStart
    requires forall i :: 0 <= i < |times| ==> w <= times[i] < w + HOUR
    requires w <= checkAt < w + HOUR
    ensures
      var base := if key in usage then usage[key].requestCount else 0;
      && (Exceeded(RecordAll(usage, key, times), key, checkAt, limit) <==> base + |times| >= limit)
      && AfterCheck(RecordAll(usage, key, times), key, checkAt)[key].requestCount == base + |times|
  {
    if times != [] || key in usage {
      RecordAllWithinWindow(usage, key, times, w);
    }
  }

  /** `Tracker`: the usage map and the hourly limit fixed at construction. */
  class Tracker {
    var usage: UsageMap
    const maxRequestsPerHour: int

    ghost predicate Valid()
      reads this
    {
      CountsValid(usage)
    }

    /** `New`: an empty usage map and the given limit. */
    constructor (maxRequestsPerHour: int)
      ensures Valid()
      ensures usage == map[] && this.maxRequestsPerHour == maxRequestsPerHour
    {
      usage := map[];
      this.maxRequestsPerHour := maxRequestsPerHour;
    }

    /** `getOrCreateUsage`: an existing entry is returned unchanged; an unseen
        key gets a fresh window starting at `now`. */
    method GetOrCreateUsage(virtualKey: string, now: int) returns (u: VirtualKeyUsage)
      requires Valid()
      modifies this`usage
      ensures Valid()
      ensures u == Observed(old(usage), virtualKey, now)
      ensures usage == old(usage)[virtualKey := u]
    {
      if virtualKey in usage {
        return usage[virtualKey];
      }
      usage := usage[virtualKey := VirtualKeyUsage(0, now)];
      return usage[virtualKey];
    }

    /** `CheckQuota`: after the lazy creation and the window reset, fails
        exactly when the count has reached the limit; it never counts. */
    method CheckQuota(virtualKey: string, now: int) returns (err: Option<QuotaError>)
      requires Valid()
      modifies this`usage
      ensures Valid()
      ensures usage == AfterCheck(old(usage), virtualKey, now)
      ensures err.Some? <==> Exceeded(old(usage), virtualKey, now, maxRequestsPerHour)
      ensures err.Some? ==> err.value == QuotaExceeded(maxRequestsPerHour)
    {
      var u := GetOrCreateUsage(virtualKey, now);
      if now - u.windowStart >= HOUR {
        u := VirtualKeyUsage(0, now);
        usage := usage[virtualKey := u];
      }
      if u.requestCount >= maxRequestsPerHour {
        return Some(QuotaExceeded(maxRequestsPerHour));
      }
      return None;
    }

    /** `RecordRequest`: after the lazy creation and the window reset,
        increments the key's count. */
    method RecordRequest(virtualKey: string, now: int)
      requires Valid()
      modifies this`usage
      ensures Valid()
      ensures usage == AfterRecord(old(usage), virtualKey, now)
    {
      var u := GetOrCreateUsage(virtualKey, now);
      if now - u.windowStart >= HOUR {
        u := VirtualKeyUsage(0, now);
        usage := usage[virtualKey := u];
      }
      usage := usage[virtualKey := u.(requestCount := u.requestCount + 1)];
    }

    /** `GetStats`: reads without resetting; an unknown key reports a zero
        count, the limit, and Go's zero time (here `None`). */
    method GetStats(virtualKey: string) returns (requestCount: int, maxRequests: int, windowStart: Option<int>)
      ensures maxRequests == maxRequestsPerHour
      ensures virtualKey in usage ==> requestCount == usage[virtualKey].requestCount && windowStart == Some(usage[virtualKey].windowStart)
      ensures virtualKey !in usage ==> requestCount == 0 && windowStart == None
    {
      if virtualKey in usage {
        var u := usage[virtualKey];
        return u.requestCount, maxRequestsPerHour, Some(u.windowStart);
      }
      return 0, maxRequestsPerHour, None;
    }
  }
}

=== FILE: virtualkey.dfy ===
/** Virtual-key validation: the `Authorization` header of an inbound request
    names a virtual key, which the read-only configuration maps to a provider
    and that provider's real API key. */
module VirtualKey {
  import opened Wrappers
  import opened Strings

  /** One configured virtual key: the provider it routes to and the real key. */
  datatype KeyConfig = KeyConfig(provider: string, apiKey: string)

  const BEARER := "Bearer "

  /** The three ways `ValidateRequest` fails; `Message` is the error text the
      gateway sends back with status 401. */
  datatype AuthError = MissingHeader | MalformedHeader | UnknownKey {
    function Message(): string
    {
      match this
      case MissingHeader => "missing Authorization header"
      case MalformedHeader => "invalid Authorization header format, expected 'Bearer <virtual-key>'"
      case UnknownKey => "invalid virtual key"
    }
  }

  /** The virtual-key service over the configuration loaded at start-up. */
  datatype Service = Service(virtualKeys: map<string, KeyConfig>) {

    /** `ValidateRequest`: rejects an empty header, a header from which
        `TrimPrefix("Bearer ")` removed nothing, and a token that is not a
        configured key; otherwise returns the token. */
    function ValidateRequest(authHeader: string): (r: Result<string, AuthError>)
      ensures r == Failure(MissingHeader) <==> authHeader == ""
      ensures r == Failure(MalformedHeader) <==> authHeader != "" && !(BEARER <= authHeader)
      ensures r == Failure(UnknownKey) <==>
        BEARER <= authHeader && authHeader[|BEARER|..] !in virtualKeys
      ensures r.Success? <==> BEARER <= authHeader && authHeader[|BEARER|..] in virtualKeys
      ensures r.Success? ==> BEARER + r.value == authHeader && r.value in virtualKeys
    {
      if authHeader == "" then Failure(MissingHeader)
      else
        var virtualKey := TrimPrefix(authHeader, BEARER);
        TrimPrefixUnchanged(authHeader, BEARER);
        if virtualKey == authHeader then Failure(MalformedHeader)
        else if virtualKey !in virtualKeys then Failure(UnknownKey)
        else Success(virtualKey)
    }

    /** `GetKeyConfig`: the configured entry and whether it exists; Go's zero
        value `KeyConfig{}` when it does not. */
    function GetKeyConfig(virtualKey: string): (r: (KeyConfig, bool))
      ensures r.1 <==> virtualKey in virtualKeys
      ensures r.1 ==> r.0 == virtualKeys[virtualKey]
      ensures !r.1 ==> r.0 == KeyConfig("", "")
    {
      if virtualKey in virtualKeys then (virtualKeys[virtualKey], true)
      else (KeyConfig("", ""), false)
    }
  }

  /** Every key `ValidateRequest` accepts is found by `GetKeyConfig`. */
  lemma ValidatedKeyIsConfigured(svc: Service, authHeader: string)
    requires svc.ValidateRequest(authHeader).Success?
    ensures svc.GetKeyConfig(svc.ValidateRequest(authHeader).value) ==
      (svc.virtualKeys[svc.ValidateRequest(authHeader).value], true)
  {
  }

  /** The prefix is stripped exactly once: "Bearer Bearer x" names the key
      "Bearer x", and is accepted only if that key is configured. */
  lemma StripsPrefixOnce(svc: Service, token: string)
    requires BEARER + token in svc.virtualKeys
    ensures svc.ValidateRequest(BEARER + BEARER + token) == Success(BEARER + token)
  {
    assert (BEARER + BEARER + token)[|BEARER|..] == BEARER + token;
  }
}

=== FILE: wrappers.dfy ===
/** Option and Result, the two failure-carrying shapes the Go code expresses
    with `(value, bool)` and `(value, error)` returns. */
module Wrappers {

  datatype Option<+T> = None | Some(value: T)

  datatype Result<+T, +E> = Success(value: T) | Failure(error: E)
}
